=== FILE: README.md ===
# FacialAnimation morph-target core in Dafny

FacialAnimation is an OpenGL demo that blends a base face mesh with a set of
blend shapes. At start-up it reads a manifest (`models.txt`) that names the
base mesh and each blend shape. It then packs, for every triangle corner of the
base mesh and every blend shape, the difference between the shape's vertex or
normal and the base's into one texture buffer. Each blend shape gets a weight
in [0, 1]. Keys change the weights and the active shape, and every frame a
label shows the active shape's name and weight.

This project models that core as pure functions over immutable data, plus
methods that follow the program's loops:

- `results.dfy`: `Option` and `Result`. Undefined behaviour at start-up (an
  end iterator dereferenced, a missing base mesh, a face with fewer than
  three vertex or normal indices or one that indexes past some mesh) becomes an `Err`. The unchecked indexing in `changeWeight`, the key
  handler, the label and `createMorphMesh` is excluded by a `requires`
  instead.
- `unsigned.dfy`: the 64-bit `size_t` used for the active index, with
  wrap-around.
- `geometry.dfy`: vectors, faces and meshes. It has only the parts of the OBJ
  data the packing reads.
- `morph_packing.dfy`: `createMorphMesh`. It gives a closed form for every
  entry of the difference buffer and the vertex buffer. A loop method builds
  both buffers the way the program does.
- `weights.dfy`: `resetWeights`, `changeWeight` and `changeActiveWeight`. The
  last comes both as written and as evidently intended.
- `manifest.dfy`: the `char_separator(",\r\n")` tokenizer and `parseModelFile`
  over a sequence of lines.
- `scene.dfy`: the key handler, the invariant that ties names, meshes, weights
  and the active index together, and start-up. Start-up is the constructor,
  then `parseModelFile`, then `createMorphMesh`.

The central invariant is `Scene.WellFormed`:

- `|names| = |meshes| = |weights| = N`;
- the active index is below `N`;
- every weight lies in [0, 1].

Start-up establishes it whenever start-up succeeds with at least one blend shape.
The corrected key handler keeps it over any sequence of keys.

The code decrements the unsigned active index and then assigns 0 when it
tests `<= 0`, so a clamp at 0 was evidently meant. On a `size_t` that test
only catches 0 after the decrement, so the left arrow on shape 0 wraps around
instead (see "## Findings"). The model keeps the program's silent skipping of
lines whose first token is not a keyword, and the rule that the last
`BaseMesh` line wins.

## Model

| member | source | states |
|---|---|---|
| Unsigned.Inc | include/NGLScene.h:89 | Incrementing a `size_t` adds one below `SIZE_MAX` and wraps `SIZE_MAX` to 0 |
| Unsigned.Dec | include/NGLScene.h:89 | Decrementing a `size_t` subtracts one above 0 and wraps 0 to `SIZE_MAX` |
| Weights.Clamp01 | src/NGLScene.cpp:297 | The `min(1, max(0, x))` clamp always lands in [0, 1], leaves values already in range alone, and sends values below or above to 0 or 1 |
| Weights.Zeros | src/NGLScene.cpp:262-265 | `n` weights, all 0 |
| Weights.AppendZeros | src/NGLScene.cpp:262-265 | Pushing `n` zero weights keeps the old weights as a prefix and adds exactly `n` zeros |
| Weights.ResetWeights | src/NGLScene.cpp:268-272 | Reset keeps the number of weights and makes every one 0, hence in range |
| Weights.ResetIdempotent | src/NGLScene.cpp:268-272 | Resetting twice is resetting once |
| Weights.ChangeWeight | src/NGLScene.cpp:289-298 | W and Q move only the active weight: up by 0.05 capped at 1, or down by 0.05 floored at 0. The result is in [0, 1] and every other weight is unchanged |
| Weights.ChangeWeightSaturates | src/NGLScene.cpp:289-298 | W at weight 1 and Q at weight 0 change nothing |
| Weights.Presses | src/NGLScene.cpp:289-298 | Repeated presses of one weight key only ever move the active weight, which lies in [0, 1] after the first press; weights in range stay in range |
| Weights.PressesUpFromZero | src/NGLScene.cpp:289-298 | From 0, `n <= 20` presses of W give `n * 0.05` and touch no other weight |
| Weights.PressesDownFromOne | src/NGLScene.cpp:289-298 | From 1, `n <= 20` presses of Q give `1 - n * 0.05` |
| Weights.ChangeActiveWeightAsWritten | src/NGLScene.cpp:274-287 | As written: up moves to the next shape, or to the last shape at the end or from any index past it. With no shapes it gives `SIZE_MAX`. Up from `SIZE_MAX` wraps back to shape 0, so the wrap can be recovered from. Down subtracts one but wraps 0 to `SIZE_MAX` |
| Weights.DownAtZeroWraps | src/NGLScene.cpp:283-284 | As written, down on shape 0 yields `SIZE_MAX`, past any mesh count |
| Weights.ChangeActiveWeight | src/NGLScene.cpp:274-287 | Corrected: an index below the mesh count stays below it. Up moves to the next shape or stays at the last one. Down moves to the previous shape or stays at 0. With no shapes, Up stays at 0 |
| Weights.ChangeActiveWeightAgrees | src/NGLScene.cpp:274-287 | For any in-range index, the corrected and as-written updates differ exactly when moving down from shape 0 |
| Manifest.Flush | src/NGLScene.cpp:318 | A finished run of non-separator characters becomes at most one token, exactly one when the run is non-empty, and that token is the run itself |
| Manifest.Scan | src/NGLScene.cpp:318 | Scanning yields only non-empty tokens free of `,`, `\r`, `\n` |
| Manifest.Tokenize | src/NGLScene.cpp:318 | Every token of a line is non-empty and separator-free |
| Manifest.ScanRun | src/NGLScene.cpp:318 | A separator-free run is absorbed into the pending token |
| Manifest.ScanJoin | src/NGLScene.cpp:318 | Scanning comma-joined tokens gives the tokens back |
| Manifest.TokenizeJoin | src/NGLScene.cpp:318 | Tokenizing comma-joined tokens gives the tokens back, so tokenizing inverts joining |
| Manifest.ScanKeeps | src/NGLScene.cpp:318 | Scanning drops exactly the separators and keeps every other character in order |
| Manifest.TokenizeSplit | src/NGLScene.cpp:318 | Each of `,`, `\r` and `\n` ends a token: the tokens of a line split at a separator are the tokens of the part before it followed by those of the part after it |
| Manifest.ScanSplit | src/NGLScene.cpp:318 | A separator ends the token being scanned, so scanning through it is scanning each side on its own |
| Manifest.TokenizeKeepsText | src/NGLScene.cpp:318 | The tokens of a line, concatenated, are the line with its separators removed |
| Manifest.ParseLine | src/NGLScene.cpp:326-346 | A non-empty line fails exactly when it has no token, or when its keyword lacks a required field. A `BaseMesh` line sets the base path. A `BlendShape` line appends its name and path. Any other line changes nothing |
| Manifest.EmptyLineIsSkipped | src/NGLScene.cpp:326 | An empty line leaves the manifest unchanged |
| Manifest.ParseLines | src/NGLScene.cpp:321-348 | The file parses exactly when no line is faulty. Otherwise the error names the first faulty line. On success there are as many names as paths, at most one per line |
| Manifest.BlendSnoc | src/NGLScene.cpp:339-346 | Appending a line appends its blend shape, if it has one, to the file-order name and path lists |
| Manifest.ParsedBlendShapesInFileOrder | src/NGLScene.cpp:339-346 | The parsed names and paths are those of the `BlendShape` lines, in file order |
| Manifest.ParsedBaseAbsent | src/NGLScene.cpp:333-338 | With no `BaseMesh` line the base path stays unset |
| Manifest.ParsedBaseIsLast | src/NGLScene.cpp:333-338 | The base path comes from the last `BaseMesh` line |
| Manifest.KeywordsAreTokens | src/NGLScene.cpp:333-339 | The two keywords are valid tokens |
| Manifest.ParseThreeLineManifest | src/NGLScene.cpp:321-348 | A manifest with one base line and two blend lines parses to that base and the two shapes in order |
| MorphPacking.FaceCornerInRange | src/NGLScene.cpp:196-200 | A face whose three corners index every mesh gives in-range indices for each corner |
| MorphPacking.ValidTopologyBaseFits | src/NGLScene.cpp:193-220 | Faces valid for all meshes are in particular valid for the base |
| MorphPacking.ShapeDelta | src/NGLScene.cpp:203-215 | A packed difference added back to the base attribute gives the shape's attribute, with w = 1 |
| MorphPacking.DeltasEntry | src/NGLScene.cpp:203-215 | Entry k of a corner's run of differences is the difference for blend shape k |
| MorphPacking.CornerBlock | src/NGLScene.cpp:200-215 | One corner contributes two entries per blend shape |
| MorphPacking.CornerBlockEntry | src/NGLScene.cpp:200-215 | In a corner's block, the first N entries are position differences per shape and the next N are normal differences per shape |
| MorphPacking.FlattenLength | src/NGLScene.cpp:193-220 | Appending blocks of equal size `w` one after another gives `w` entries per block |
| MorphPacking.FlattenEntry | src/NGLScene.cpp:193-220 | Entry t of block b lands at `b * w + t` |
| MorphPacking.FaceCornersLength | src/NGLScene.cpp:196-219 | `c` corners of a face contribute `c * 2N` entries |
| MorphPacking.FaceCornersEntry | src/NGLScene.cpp:196-219 | Within a face, corner j's block starts right after the blocks of the corners before it |
| MorphPacking.FaceBlocksUniform | src/NGLScene.cpp:193-220 | Every face contributes `6N` entries |
| MorphPacking.PackTargetsStep | src/NGLScene.cpp:193-220 | One pass of the face loop appends exactly that face's three corner blocks |
| MorphPacking.PackTargetsBlockEntry | src/NGLScene.cpp:193-220 | Face i, corner j, entry t sits after i whole faces and the corners of face i before j |
| MorphPacking.PackTargetsEntry | src/NGLScene.cpp:193-220 | Face i, corner j, entry t sits at `(3i + j) * 2N + t` |
| MorphPacking.PackTargets | src/NGLScene.cpp:193-220 | The closed form of the difference buffer, the three corner blocks of every face in face order, is empty exactly when there are no faces or no blend shapes |
| MorphPacking.PackTargetsLength | src/NGLScene.cpp:193-220 | The whole difference buffer has faces × 3 × 2 × N entries |
| MorphPacking.CornerRecords | src/NGLScene.cpp:196-219 | The base records of a face's corners are its base position and base normal, corner by corner |
| MorphPacking.PackBase | src/NGLScene.cpp:193-220 | The first `n` faces contribute `3n` vertex records |
| MorphPacking.PackedPositionDelta | src/NGLScene.cpp:200-207 | The entry for face i, corner j, shape k is shape k's vertex minus the base vertex at that corner, with w = 1 |
| MorphPacking.PackedNormalDelta | src/NGLScene.cpp:210-215 | The entry N past it is shape k's normal minus the base normal at that corner, with w = 1 |
| MorphPacking.PackBaseEntry | src/NGLScene.cpp:217-218 | Vertex record `3i + j` is the base record of face i's corner j |
| MorphPacking.PackedBaseRecord | src/NGLScene.cpp:193-220 | The vertex buffer has `3 * faces` records, and record `3i + j` holds the base position and base normal of face i's corner j |
| MorphPacking.AppendDeltas | src/NGLScene.cpp:203-215 | The inner loop over shapes appends exactly that corner's differences, in shape order |
| MorphPacking.AppendCorner | src/NGLScene.cpp:200-218 | One pass of the corner loop appends that corner's position differences, then its normal differences, and yields its base record |
| MorphPacking.AppendFace | src/NGLScene.cpp:196-219 | The loop over a face's three corners appends that face's block and its three base records |
| MorphPacking.PackFaces | src/NGLScene.cpp:193-220 | The face loop builds exactly the face blocks in face order and the base records in face order |
| MorphPacking.AppendZeroWeights | src/NGLScene.cpp:262-265 | The weight loop appends one zero per blend mesh |
| MorphPacking.CreateMorphMesh | src/NGLScene.cpp:160-265 | The loops build exactly the closed-form buffers, of sizes faces × 6N and 3 × faces. They add N zero weights after the old ones |
| Scene.WellFormed | src/NGLScene.cpp:436 | The cross-component invariant: one name and one weight per blend mesh, the active index below their number, every weight in [0, 1] |
| Scene.Label | src/NGLScene.cpp:436 | Under the invariant, the drawn label is some shape's name paired with its weight, and that weight is in [0, 1] |
| Scene.KeyPress | src/NGLScene.cpp:530-554 | Q, W, the arrows and space change only the weight state, and other keys change nothing. W applies `changeWeight` up and Q applies it down to the active weight, so W never lowers it and Q never raises it. Space resets the weights. The arrows keep the weights. Q, W and space keep the index. The invariant is preserved |
| Scene.Run | src/NGLScene.cpp:530-554 | Any sequence of keys from a well-formed scene leaves it well-formed, with the same names and meshes |
| Scene.RunAppend | src/NGLScene.cpp:530-554 | Running two key sequences one after the other is running their concatenation |
| Scene.SpaceResetsAfterAnyKeys | src/NGLScene.cpp:548 | Space after any keys makes every weight 0 and keeps the active index |
| Scene.OnlyArrowsMoveActive | src/NGLScene.cpp:542-548 | Without arrow keys the active index never moves |
| Scene.KeyPressAsWritten | src/NGLScene.cpp:530-554 | With the index update as written, non-arrow keys act as in the corrected handler and the arrows keep names, meshes and weights |
| Scene.LeftAtFirstShapeBreaksLabel | src/NGLScene.cpp:283-284 | As written, the left arrow on shape 0 makes the next frame's label index past the names and the weights |
| Scene.KeyPressAgrees | src/NGLScene.cpp:274-287 | On a well-formed scene, the handler as written differs from the corrected one exactly for the left arrow on shape 0 |
| Scene.LoadAll | src/NGLScene.cpp:345-346 | One mesh per manifest path, each loaded from that path |
| Scene.Startup | src/NGLScene.cpp:145-148 | Start-up fails exactly on a faulty manifest, a missing base mesh, or faces with fewer than three vertex or normal indices, or that index past some mesh. On success the names and meshes are the manifest's blend shapes in file order, with one zero weight each and active index 0. The base mesh is the one loaded from the manifest's base path, and the buffers are the difference buffer and the base records packed from it and the blend meshes, of sizes faces × 6N and 3 × faces. The scene is well-formed exactly when there is at least one shape |

## Left out

- The OpenGL upload of both buffers (`src/NGLScene.cpp:225-259`) is not modelled. The model stops at the CPU-side `targets` and `vboMesh` contents; the GPU is not observable here.
- Shader set-up, camera and projection, the per-frame uniforms, mouse and wheel handling, and text rendering are left out. They are wrappers around external libraries.
- The keys `Escape`, `1`, `2`, `F` and `N` only call into the windowing library. `Scene.KeyPress` models them as leaving the weight state unchanged.
- Opening `models.txt` and `exit` on failure are left out. The manifest is taken as its sequence of lines. A trailing empty line from `getline` at end of file is an empty line, which `Manifest.EmptyLineIsSkipped` covers.
- OBJ loading is a parameter, `load: string -> Mesh`. Faces are assumed to be already triangulated, and only their first three corners are read, as in the program.
- Geometry uses exact `real` arithmetic. The program uses single-precision floats, so rounding in the differences and in the 0.05 weight steps is not modelled.
- `MorphPacking.CreateMorphMesh` requires that every face has at least three vertex and three normal indices and that each is in range for the base and every blend mesh. The program does not check this and reads out of bounds otherwise, for example at `m_norm[j]` (src/NGLScene.cpp:210) for an OBJ face without normal indices. `Scene.Startup` checks it and reports `TopologyMismatch`.
- Weights.ChangeActiveWeight: with no blend shapes the right arrow leaves the index at 0, whereas the program's `m_meshes.size()-1` wraps to `SIZE_MAX` (src/NGLScene.cpp:280). With no shapes every index is out of range anyway, and `Scene.Startup` states that such a scene is not well-formed. `Weights.ChangeActiveWeightAsWritten` keeps the program's value.
- `Weights.ChangeWeight` requires the active index to name a weight. The program indexes without a check.
- `Scene.Startup` requires fewer than 2^64 manifest lines, so that the number of blend shapes fits a `size_t`.
- `size_t` is assumed to be 64 bits wide. The `int` and `unsigned int` counters in `createMorphMesh` are modelled as unbounded. Overflowing them needs more than 2^31 meshes or faces.
- The header declares the mesh containers as `unique_ptr` but the program stores raw pointers. Ownership is not modelled.
- With no blend shapes, the program takes `&targets[0]` of an empty vector (src/NGLScene.cpp:230). The model's `targets` is simply empty there; `vboMesh` still holds 3 records per face, as in the program. `Scene.Startup` states that such a scene is not well-formed, which makes the out-of-range label read visible.
- With a base mesh that has no faces, the program takes both `&targets[0]` (src/NGLScene.cpp:230) and `vboMesh[0]` (src/NGLScene.cpp:247) of empty vectors. Both reads belong to the GL upload, which is not modelled. `Scene.Startup` succeeds there with both buffers empty, and the scene can still be well-formed.

## Findings

| source | as written | input that shows it | evidently intended | confidence | as-written member | corrected member |
|---|---|---|---|---|---|---|
| src/NGLScene.cpp:283-284 | `--m_activeWeight` on a `size_t` and then `<= 0`. The test is true only at 0 after the decrement, so moving down from 0 wraps to `SIZE_MAX` | active index 0, left arrow. The next `paintGL` reads `m_meshNames[SIZE_MAX]` and the next Q or W writes `m_weights[SIZE_MAX]` | the index stays at 0 when moving down from the first shape | not executed | Weights.ChangeActiveWeightAsWritten, Weights.DownAtZeroWraps, Scene.LeftAtFirstShapeBreaksLabel | Weights.ChangeActiveWeight, Scene.KeyPress, Scene.Run |

=== FILE: geometry.dfy ===
/** The mesh data the morph packing reads: positions, normals and faces of an
    OBJ mesh, with coordinates as exact reals. */
module Geometry {

  datatype Vec3 = Vec3(x: real, y: real, z: real)

  /** A texture-buffer texel; the packing always sets `w` to 1. */
  datatype Vec4 = Vec4(x: real, y: real, z: real, w: real)

  function Sub(a: Vec3, b: Vec3): Vec3
  {
    Vec3(a.x - b.x, a.y - b.y, a.z - b.z)
  }

  function Add(a: Vec3, b: Vec3): Vec3
  {
    Vec3(a.x + b.x, a.y + b.y, a.z + b.z)
  }

  /** A difference vector stored as a texel with `w = 1`. */
  function Point(v: Vec3): (r: Vec4)
    ensures r.w == 1.0
  {
    Vec4(v.x, v.y, v.z, 1.0)
  }

  /** The direction part of a texel. */
  function Xyz(t: Vec4): Vec3
  {
    Vec3(t.x, t.y, t.z)
  }

  /** A face: indices into the vertex list and into the normal list, one per
      corner. The packing only reads the first three corners. */
  datatype Face = Face(vert: seq<nat>, norm: seq<nat>)

  datatype Mesh = Mesh(verts: seq<Vec3>, normals: seq<Vec3>, faces: seq<Face>)

  /** Which of a mesh's two per-vertex lists a delta is taken from. */
  datatype Attr = Position | Normal

  function Attribute(m: Mesh, a: Attr): seq<Vec3>
  {
    match a
    case Position => m.verts
    case Normal => m.normals
  }
}

=== FILE: manifest.dfy ===
/** `parseModelFile`: the manifest is read line by line; each non-empty line is
    split on `,`, `\r` and `\n`, and its first token selects a directive:
    `BaseMesh,<path>` or `BlendShape,<name>,<path>`. The file itself is not
    modelled: the manifest is the sequence of lines `getline` produced. */
module Manifest {
  import opened Results

  /** The separator set of the tokenizer. */
  predicate IsSeparator(c: char)
  {
    c == ',' || c == '\r' || c == '\n'
  }

  predicate NoSeparators(s: string)
  {
    forall i :: 0 <= i < |s| ==> !IsSeparator(s[i])
  }

  /** What the tokenizer yields: a non-empty run without separators. */
  predicate IsToken(s: string)
  {
    |s| > 0 && NoSeparators(s)
  }

  /** The pending token, if any characters have been collected. */
  function Flush(pending: string): (r: seq<string>)
    requires NoSeparators(pending)
    ensures forall i :: 0 <= i < |r| ==> IsToken(r[i])
    ensures |r| <= 1 && (|r| == 1 <==> |pending| > 0)
    ensures |r| == 1 ==> r[0] == pending
  {
    if |pending| == 0 then [] else [pending]
  }

  /** Scans `rest` with `pending` holding the token read so far: a separator
      ends the token, and an empty token is dropped. */
  function Scan(rest: string, pending: string): (r: seq<string>)
    requires NoSeparators(pending)
    ensures forall i :: 0 <= i < |r| ==> IsToken(r[i])
    decreases |rest|
  {
    if |rest| == 0 then Flush(pending)
    else if IsSeparator(rest[0]) then Flush(pending) + Scan(rest[1..], [])
    else Scan(rest[1..], pending + [rest[0]])
  }

  /** The tokens of a line, as `boost::char_separator<char>(",\r\n")` yields
      them with its default policy of dropping empty tokens. */
  function Tokenize(line: string): (r: seq<string>)
    ensures forall i :: 0 <= i < |r| ==> IsToken(r[i])
  {
    Scan(line, [])
  }

  /** Fields written out with a comma between each two. */
  function JoinFields(fields: seq<string>): string
  {
    if |fields| == 0 then []
    else if |fields| == 1 then fields[0]
    else fields[0] + "," + JoinFields(fields[1..])
  }

  /** The characters of `s` that are not separators, in order. */
  function Kept(s: string): string
  {
    if |s| == 0 then []
    else (if IsSeparator(s[0]) then [] else [s[0]]) + Kept(s[1..])
  }

  function Concat(ts: seq<string>): string
  {
    if |ts| == 0 then [] else ts[0] + Concat(ts[1..])
  }

  /** A separator-free run is absorbed into the pending token. */
  lemma {:induction false} ScanRun(run: string, rest: string, pending: string)
    requires NoSeparators(run) && NoSeparators(pending)
    ensures NoSeparators(pending + run)
    ensures Scan(run + rest, pending) == Scan(rest, pending + run)
  {
    if |run| == 0 {
      assert run + rest == rest;
      assert pending + run == pending;
    } else {
      assert (run + rest)[0] == run[0];
      assert (run + rest)[1..] == run[1..] + rest;
      ScanRun(run[1..], rest, pending + [run[0]]);
      assert pending + [run[0]] + run[1..] == pending + run;
    }
  }

  lemma {:induction false} ScanJoin(fields: seq<string>)
    requires forall i :: 0 <= i < |fields| ==> IsToken(fields[i])
    ensures Scan(JoinFields(fields), []) == fields
  {
    if |fields| == 1 {
      ScanRun(fields[0], [], []);
      assert fields[0] + [] == fields[0];
      assert [] + fields[0] == fields[0];
    } else if |fields| > 1 {
      var tail := "," + JoinFields(fields[1..]);
      assert JoinFields(fields) == fields[0] + tail;
      ScanRun(fields[0], tail, []);
      assert [] + fields[0] == fields[0];
      assert tail[1..] == JoinFields(fields[1..]);
      ScanJoin(fields[1..]);
      assert fields == [fields[0]] + fields[1..];
    }
  }

  /** Round trip: tokenizing comma-joined tokens gives the tokens back. */
  lemma TokenizeJoin(fields: seq<string>)
    requires forall i :: 0 <= i < |fields| ==> IsToken(fields[i])
    ensures Tokenize(JoinFields(fields)) == fields
  {
    ScanJoin(fields);
  }

  /** Every separator ends the token being read, whatever follows it. */
  lemma {:induction false} ScanSplit(a: string, c: char, b: string, pending: string)
    requires NoSeparators(pending) && IsSeparator(c)
    ensures Scan(a + [c] + b, pending) == Scan(a, pending) + Scan(b, [])
    decreases |a|
  {
    var line := a + [c] + b;
    if |a| == 0 {
      assert line[0] == c && line[1..] == b;
      assert Scan(a, pending) == Flush(pending);
    } else {
      assert line[0] == a[0];
      assert line[1..] == a[1..] + [c] + b;
      if IsSeparator(a[0]) {
        ScanSplit(a[1..], c, b, []);
        assert Scan(line, pending) == Flush(pending) + (Scan(a[1..], []) + Scan(b, []));
      } else {
        ScanSplit(a[1..], c, b, pending + [a[0]]);
      }
    }
  }

  /** A line splits at each of `,`, `\r` and `\n`: the tokens on either side
      are those of the two parts on their own. */
  lemma TokenizeSplit(a: string, c: char, b: string)
    requires IsSeparator(c)
    ensures Tokenize(a + [c] + b) == Tokenize(a) + Tokenize(b)
  {
    ScanSplit(a, c, b, []);
  }

  lemma {:induction false} ScanKeeps(rest: string, pending: string)
    requires NoSeparators(pending)
    ensures Concat(Scan(rest, pending)) == pending + Kept(rest)
    decreases |rest|
  {
    if |rest| == 0 {
      assert pending + [] == pending;
      if |pending| > 0 {
        assert Concat([pending]) == pending + Concat([]);
      }
    } else if IsSeparator(rest[0]) {
      ScanKeeps(rest[1..], []);
      var after := Scan(rest[1..], []);
      if |pending| > 0 {
        assert ([pending] + after)[1..] == after;
      } else {
        assert [] + after == after;
      }
    } else {
      ScanKeeps(rest[1..], pending + [rest[0]]);
      assert pending + [rest[0]] + Kept(rest[1..]) == pending + ([rest[0]] + Kept(rest[1..]));
    }
  }

  /** Tokenizing loses no character but the separators: the tokens, put back
      together, are the line with its separators removed. */
  lemma TokenizeKeepsText(line: string)
    ensures Concat(Tokenize(line)) == Kept(line)
  {
    ScanKeeps(line, []);
    assert [] + Kept(line) == Kept(line);
  }

  /** What the parse has collected: the base-mesh path (null until a
      `BaseMesh` line) and the blend-shape names and paths, in lockstep. */
  datatype Manifest = Manifest(basePath: Option<string>, names: seq<string>, paths: seq<string>)

  const EMPTY: Manifest := Manifest(None, [], [])

  /** The three ways a line makes the program dereference the tokenizer's end
      iterator: no token at all, `BaseMesh` without a path, `BlendShape`
      without a name and a path. */
  datatype LineFault = NoTokens | MissingBasePath | MissingBlendField

  datatype ParseError = ParseError(line: nat, fault: LineFault)

  const BASE_MESH: string := "BaseMesh"
  const BLEND_SHAPE: string := "BlendShape"

  /** A well-formed `BaseMesh` line; any tokens after the path are ignored. */
  predicate IsBaseLine(line: string)
  {
    var t := Tokenize(line);
    |t| >= 2 && t[0] == BASE_MESH
  }

  /** A well-formed `BlendShape` line; any tokens after the path are ignored. */
  predicate IsBlendLine(line: string)
  {
    var t := Tokenize(line);
    |t| >= 3 && t[0] == BLEND_SHAPE
  }

  /** A non-empty line on which the program reads past the last token. */
  predicate Faulty(line: string)
  {
    var t := Tokenize(line);
    && |line| > 0
    && (|t| == 0 || (t[0] == BASE_MESH && |t| < 2) || (t[0] == BLEND_SHAPE && |t| < 3))
  }

  /** One pass of the parse loop's body. */
  function ParseLine(m: Manifest, line: string): (r: Result<Manifest, LineFault>)
    ensures r.Err? <==> Faulty(line)
    ensures IsBaseLine(line) ==> r == Ok(m.(basePath := Some(Tokenize(line)[1])))
    ensures IsBlendLine(line) ==>
              r == Ok(m.(names := m.names + [Tokenize(line)[1]], paths := m.paths + [Tokenize(line)[2]]))
    ensures !Faulty(line) && !IsBaseLine(line) && !IsBlendLine(line) ==> r == Ok(m)
  {
    if |line| == 0 then Ok(m)
    else
      var tokens := Tokenize(line);
      if |tokens| == 0 then Err(NoTokens)
      else if tokens[0] == BASE_MESH then
        if |tokens| < 2 then Err(MissingBasePath)
        else Ok(m.(basePath := Some(tokens[1])))
      else if tokens[0] == BLEND_SHAPE then
        if |tokens| < 3 then Err(MissingBlendField)
        else Ok(m.(names := m.names + [tokens[1]], paths := m.paths + [tokens[2]]))
      else Ok(m)
  }

  /** The empty line, by the tokenizer's definition, is not faulty and not a directive. */
  lemma {:induction false} EmptyLineIsSkipped(m: Manifest)
    ensures ParseLine(m, []) == Ok(m)
  {
  }

  /** `parseModelFile`'s loop over the lines, stopping at the first faulty one. */
  function ParseLines(lines: seq<string>): (r: Result<Manifest, ParseError>)
    ensures r.Ok? ==> |r.value.names| == |r.value.paths| <= |lines|
    ensures r.Ok? <==> forall i :: 0 <= i < |lines| ==> !Faulty(lines[i])
    ensures r.Err? ==> && r.error.line < |lines|
                       && Faulty(lines[r.error.line])
                       && forall i :: 0 <= i < r.error.line ==> !Faulty(lines[i])
    decreases |lines|
  {
    if |lines| == 0 then Ok(EMPTY)
    else
      var prefix := lines[..|lines| - 1];
      var last := lines[|lines| - 1];
      assert forall i :: 0 <= i < |prefix| ==> prefix[i] == lines[i];
      match ParseLines(prefix)
      case Err(e) => Err(e)
      case Ok(m) =>
        match ParseLine(m, last)
        case Err(f) => Err(ParseError(|lines| - 1, f))
        case Ok(m') => Ok(m')
  }

  /** The names of the well-formed `BlendShape` lines, in file order. */
  function BlendNames(lines: seq<string>): seq<string>
  {
    if |lines| == 0 then []
    else (if IsBlendLine(lines[0]) then [Tokenize(lines[0])[1]] else []) + BlendNames(lines[1..])
  }

  /** The mesh paths of the well-formed `BlendShape` lines, in file order. */
  function BlendPaths(lines: seq<string>): seq<string>
  {
    if |lines| == 0 then []
    else (if IsBlendLine(lines[0]) then [Tokenize(lines[0])[2]] else []) + BlendPaths(lines[1..])
  }

  lemma {:induction false} BlendSnoc(lines: seq<string>, line: string)
    ensures BlendNames(lines + [line]) == BlendNames(lines) + (if IsBlendLine(line) then [Tokenize(line)[1]] else [])
    ensures BlendPaths(lines + [line]) == BlendPaths(lines) + (if IsBlendLine(line) then [Tokenize(line)[2]] else [])
  {
    if |lines| == 0 {
      assert [] + [line] == [line];
      assert [line][1..] == [];
    } else {
      assert (lines + [line])[0] == lines[0];
      assert (lines + [line])[1..] == lines[1..] + [line];
      BlendSnoc(lines[1..], line);
    }
  }

  /** A successful parse holds one name and one path per well-formed
      `BlendShape` line, in file order, so the two lists stay in lockstep. */
  lemma {:induction false} ParsedBlendShapesInFileOrder(lines: seq<string>)
    requires ParseLines(lines).Ok?
    ensures ParseLines(lines).value.names == BlendNames(lines)
    ensures ParseLines(lines).value.paths == BlendPaths(lines)
    decreases |lines|
  {
    if |lines| > 0 {
      var prefix := lines[..|lines| - 1];
      var last := lines[|lines| - 1];
      assert lines == prefix + [last];
      ParsedBlendShapesInFileOrder(prefix);
      BlendSnoc(prefix, last);
    }
  }

  /** Without any well-formed `BaseMesh` line the base path stays unset. */
  lemma {:induction false} ParsedBaseAbsent(lines: seq<string>)
    requires ParseLines(lines).Ok?
    requires forall i :: 0 <= i < |lines| ==> !IsBaseLine(lines[i])
    ensures ParseLines(lines).value.basePath == None
    decreases |lines|
  {
    if |lines| > 0 {
      var prefix := lines[..|lines| - 1];
      assert forall i :: 0 <= i < |prefix| ==> prefix[i] == lines[i];
      ParsedBaseAbsent(prefix);
    }
  }

  /** The last well-formed `BaseMesh` line sets the base path. */
  lemma {:induction false} ParsedBaseIsLast(lines: seq<string>, i: nat)
    requires ParseLines(lines).Ok?
    requires i < |lines| && IsBaseLine(lines[i])
    requires forall k :: i < k < |lines| ==> !IsBaseLine(lines[k])
    ensures ParseLines(lines).value.basePath == Some(Tokenize(lines[i])[1])
    decreases |lines|
  {
    var prefix := lines[..|lines| - 1];
    assert forall k :: 0 <= k < |prefix| ==> prefix[k] == lines[k];
    if i < |lines| - 1 {
      ParsedBaseIsLast(prefix, i);
    }
  }

  lemma {:induction false} KeywordsAreTokens()
    ensures IsToken(BASE_MESH) && IsToken(BLEND_SHAPE)
  {
  }

  /** A manifest of one `BaseMesh` line followed by two `BlendShape` lines
      loads exactly those two shapes, in file order. */
  lemma {:induction false} ParseThreeLineManifest(base: string, name1: string, path1: string, name2: string, path2: string)
    requires IsToken(base) && IsToken(name1) && IsToken(path1) && IsToken(name2) && IsToken(path2)
    ensures ParseLines([JoinFields([BASE_MESH, base]),
                        JoinFields([BLEND_SHAPE, name1, path1]),
                        JoinFields([BLEND_SHAPE, name2, path2])])
         == Ok(Manifest(Some(base), [name1, name2], [path1, path2]))
  {
    KeywordsAreTokens();
    var l0 := JoinFields([BASE_MESH, base]);
    var l1 := JoinFields([BLEND_SHAPE, name1, path1]);
    var l2 := JoinFields([BLEND_SHAPE, name2, path2]);
    TokenizeJoin([BASE_MESH, base]);
    TokenizeJoin([BLEND_SHAPE, name1, path1]);
    TokenizeJoin([BLEND_SHAPE, name2, path2]);
    assert BASE_MESH != BLEND_SHAPE;
    assert [l0][..0] == [];
    assert IsBaseLine(l0);
    assert ParseLines([l0]) == Ok(Manifest(Some(base), [], []));
    assert [l0, l1][..1] == [l0];
    assert IsBlendLine(l1);
    var m0 := Manifest(Some(base), [], []);
    assert m0.names + [Tokenize(l1)[1]] == [name1];
    assert m0.paths + [Tokenize(l1)[2]] == [path1];
    var m1 := Manifest(Some(base), [name1], [path1]);
    assert ParseLines([l0, l1]) == Ok(m1);
    assert [l0, l1, l2][..2] == [l0, l1];
    assert IsBlendLine(l2);
    assert m1.names + [Tokenize(l2)[1]] == [name1, name2];
    assert m1.paths + [Tokenize(l2)[2]] == [path1, path2];
  }
}

=== FILE: morph_packing.dfy ===
/** The morph-target packing of `createMorphMesh`: for every face, every
    triangle corner and every blend shape, the position delta and then the
    normal delta are appended to one flat texel buffer, and one base
    (position, normal) record is appended per corner. The shader finds a
    delta by index arithmetic, so the order and the length are the contract. */
module MorphPacking {
  import opened Geometry
  import Weights

  /** One record of the base-pose vertex buffer. */
  datatype VertData = VertData(p: Vec3, n: Vec3)

  /** Corner `j` of face `f` can be read in mesh `m`: the face has that corner
      and its vertex and normal indices are inside `m`'s lists. */
  predicate CornerFits(m: Mesh, f: Face, j: nat)
  {
    && j < |f.vert| && j < |f.norm|
    && f.vert[j] < |m.verts|
    && f.norm[j] < |m.normals|
  }

  /** The three corners of `f` can be read in mesh `m`. */
  predicate FaceFits(m: Mesh, f: Face)
  {
    forall j :: 0 <= j < 3 ==> CornerFits(m, f, j)
  }

  /** Face `f` can be read in the base mesh and in every blend shape. */
  predicate FaceInRange(base: Mesh, shapes: seq<Mesh>, f: Face)
  {
    && FaceFits(base, f)
    && forall k :: 0 <= k < |shapes| ==> FaceFits(shapes[k], f)
  }

  /** Corner `j` of `f` can be read in the base mesh and in every blend shape. */
  predicate CornerInRange(base: Mesh, shapes: seq<Mesh>, f: Face, j: nat)
  {
    && CornerFits(base, f, j)
    && forall k :: 0 <= k < |shapes| ==> CornerFits(shapes[k], f, j)
  }

  lemma {:induction false} FaceCornerInRange(base: Mesh, shapes: seq<Mesh>, f: Face, j: nat)
    requires FaceInRange(base, shapes, f) && j < 3
    ensures CornerInRange(base, shapes, f, j)
  {
  }

  /** Every face of the base mesh is a triangle whose indices are valid in the
      base mesh and in every blend shape. The program never checks this. */
  predicate ValidTopology(base: Mesh, shapes: seq<Mesh>)
  {
    forall i :: 0 <= i < |base.faces| ==> FaceInRange(base, shapes, base.faces[i])
  }

  /** Every face of `base` can be read in `base`. */
  predicate BaseFits(base: Mesh)
  {
    forall i :: 0 <= i < |base.faces| ==> FaceFits(base, base.faces[i])
  }

  lemma {:induction false} ValidTopologyBaseFits(base: Mesh, shapes: seq<Mesh>)
    requires ValidTopology(base, shapes)
    ensures BaseFits(base)
  {
    forall i | 0 <= i < |base.faces|
      ensures FaceFits(base, base.faces[i])
    {
      assert FaceInRange(base, shapes, base.faces[i]);
    }
  }

  /** The texel for one shape's value at `idx` relative to the base value `b`. */
  function ShapeDelta(shape: Mesh, a: Attr, idx: nat, b: Vec3): (r: Vec4)
    requires idx < |Attribute(shape, a)|
    ensures Add(b, Xyz(r)) == Attribute(shape, a)[idx]
    ensures r.w == 1.0
  {
    Point(Sub(Attribute(shape, a)[idx], b))
  }

  /** The innermost loop: the deltas of the first `count` shapes, in shape order. */
  function Deltas(shapes: seq<Mesh>, a: Attr, idx: nat, b: Vec3, count: nat): (r: seq<Vec4>)
    requires count <= |shapes|
    requires forall k :: 0 <= k < |shapes| ==> idx < |Attribute(shapes[k], a)|
    ensures |r| == count
    decreases count
  {
    if count == 0 then []
    else Deltas(shapes, a, idx, b, count - 1) + [ShapeDelta(shapes[count - 1], a, idx, b)]
  }

  /** Entry `k` of the inner loop's output is shape `k`'s delta. */
  lemma {:induction false} DeltasEntry(shapes: seq<Mesh>, a: Attr, idx: nat, b: Vec3, count: nat, k: nat)
    requires count <= |shapes|
    requires forall k :: 0 <= k < |shapes| ==> idx < |Attribute(shapes[k], a)|
    requires k < count
    ensures Deltas(shapes, a, idx, b, count)[k] == ShapeDelta(shapes[k], a, idx, b)
  {
    if k < count - 1 {
      DeltasEntry(shapes, a, idx, b, count - 1, k);
    }
  }

  /** Shape `k`'s position delta at corner `j` of face `f`. */
  function PositionDelta(base: Mesh, shape: Mesh, f: Face, j: nat): Vec4
    requires CornerFits(base, f, j) && CornerFits(shape, f, j)
  {
    ShapeDelta(shape, Position, f.vert[j], base.verts[f.vert[j]])
  }

  /** Shape `k`'s normal delta at corner `j` of face `f`. */
  function NormalDelta(base: Mesh, shape: Mesh, f: Face, j: nat): Vec4
    requires CornerFits(base, f, j) && CornerFits(shape, f, j)
  {
    ShapeDelta(shape, Normal, f.norm[j], base.normals[f.norm[j]])
  }

  /** Everything one corner contributes: all position deltas, then all normal deltas. */
  function CornerBlock(base: Mesh, shapes: seq<Mesh>, f: Face, j: nat): (r: seq<Vec4>)
    requires CornerInRange(base, shapes, f, j)
    ensures |r| == 2 * |shapes|
  {
    Deltas(shapes, Position, f.vert[j], base.verts[f.vert[j]], |shapes|)
    + Deltas(shapes, Normal, f.norm[j], base.normals[f.norm[j]], |shapes|)
  }

  /** Within a corner's block, shape `k`'s position delta is entry `k` and its
      normal delta is entry `|shapes| + k`. */
  lemma {:induction false} CornerBlockEntry(base: Mesh, shapes: seq<Mesh>, f: Face, j: nat, k: nat)
    requires CornerInRange(base, shapes, f, j)
    requires k < |shapes|
    ensures CornerFits(shapes[k], f, j)
    ensures CornerBlock(base, shapes, f, j)[k] == PositionDelta(base, shapes[k], f, j)
    ensures CornerBlock(base, shapes, f, j)[|shapes| + k] == NormalDelta(base, shapes[k], f, j)
  {
    assert CornerFits(shapes[k], f, j);
    DeltasEntry(shapes, Position, f.vert[j], base.verts[f.vert[j]], |shapes|, k);
    DeltasEntry(shapes, Normal, f.norm[j], base.normals[f.norm[j]], |shapes|, k);
  }

  /** The blocks concatenated in order. */
  function Flatten<T>(blocks: seq<seq<T>>): seq<T>
  {
    if |blocks| == 0 then []
    else Flatten(blocks[..|blocks| - 1]) + blocks[|blocks| - 1]
  }

  /** Every block holds `w` entries. */
  predicate Uniform<T>(blocks: seq<seq<T>>, w: nat)
  {
    forall b :: 0 <= b < |blocks| ==> |blocks[b]| == w
  }

  lemma ProductNonNegative(a: nat, b: nat)
    ensures 0 <= a * b
  {
  }

  lemma MultiplyStep(n: nat, w: nat)
    requires n > 0
    ensures n * w == (n - 1) * w + w
  {
  }

  lemma {:induction false} MultiplyMonotone(b: nat, n: nat, w: nat)
    requires b < n
    ensures b * w + w <= n * w
  {
    MultiplyStep(n, w);
    if b < n - 1 {
      MultiplyMonotone(b, n - 1, w);
    }
  }

  /** Taking one more block appends that block's entries. */
  lemma FlattenSnoc<T>(blocks: seq<seq<T>>, k: nat)
    requires k < |blocks|
    ensures Flatten(blocks[..k + 1]) == Flatten(blocks[..k]) + blocks[k]
  {
    assert blocks[..k + 1][..k] == blocks[..k];
  }

  /** `n` blocks of `w` entries flatten to `n * w` entries. */
  lemma {:induction false} FlattenLength<T>(blocks: seq<seq<T>>, w: nat)
    requires Uniform(blocks, w)
    ensures |Flatten(blocks)| == |blocks| * w
  {
    if |blocks| > 0 {
      var n := |blocks|;
      assert Uniform(blocks[..n - 1], w);
      FlattenLength(blocks[..n - 1], w);
      MultiplyStep(n, w);
    }
  }

  /** Entry `t` of block `b` lands at `b * w + t`. */
  lemma {:induction false} FlattenEntry<T>(blocks: seq<seq<T>>, w: nat, b: nat, t: nat)
    requires Uniform(blocks, w)
    requires b < |blocks| && t < w
    ensures b * w + t < |Flatten(blocks)|
    ensures Flatten(blocks)[b * w + t] == blocks[b][t]
  {
    var n := |blocks|;
    var prefix := blocks[..n - 1];
    assert Uniform(prefix, w);
    FlattenLength(prefix, w);
    assert Flatten(blocks) == Flatten(prefix) + blocks[n - 1];
    if b == n - 1 {
      AppendIndex(Flatten(prefix), blocks[n - 1], b * w + t);
    } else {
      FlattenEntry(prefix, w, b, t);
      MultiplyMonotone(b, n - 1, w);
      assert (Flatten(prefix) + blocks[n - 1])[b * w + t] == Flatten(prefix)[b * w + t];
    }
  }

  /** An index past the first part of a concatenation reads the second part. */
  lemma AppendIndex<T>(a: seq<T>, b: seq<T>, idx: nat)
    requires |a| <= idx < |a| + |b|
    ensures (a + b)[idx] == b[idx - |a|]
  {
  }

  /** The middle loop: the blocks of the first `c` corners of face `f`. */
  function FaceCorners(base: Mesh, shapes: seq<Mesh>, f: Face, c: nat): seq<Vec4>
    requires c <= 3
    requires FaceInRange(base, shapes, f)
  {
    if c == 0 then []
    else
      FaceCornerInRange(base, shapes, f, c - 1);
      FaceCorners(base, shapes, f, c - 1) + CornerBlock(base, shapes, f, c - 1)
  }

  /** Every corner of a face contributes 2 × shapes texels. */
  lemma {:induction false} FaceCornersLength(base: Mesh, shapes: seq<Mesh>, f: Face, c: nat)
    requires c <= 3
    requires FaceInRange(base, shapes, f)
    ensures |FaceCorners(base, shapes, f, c)| == c * (2 * |shapes|)
  {
    if c > 0 {
      FaceCornerInRange(base, shapes, f, c - 1);
      FaceCornersLength(base, shapes, f, c - 1);
      MultiplyStep(c, 2 * |shapes|);
    }
  }

  /** Within a face's blocks, offset `t` after the first `j` corners is entry
      `t` of corner `j`'s block. */
  lemma {:induction false} FaceCornersEntry(base: Mesh, shapes: seq<Mesh>, f: Face, c: nat, j: nat, t: nat)
    requires c <= 3 && j < c && t < 2 * |shapes|
    requires FaceInRange(base, shapes, f)
    ensures CornerInRange(base, shapes, f, j)
    ensures |FaceCorners(base, shapes, f, j)| + t < |FaceCorners(base, shapes, f, c)|
    ensures FaceCorners(base, shapes, f, c)[|FaceCorners(base, shapes, f, j)| + t]
         == CornerBlock(base, shapes, f, j)[t]
  {
    FaceCornerInRange(base, shapes, f, j);
    FaceCornerInRange(base, shapes, f, c - 1);
    var prefix := FaceCorners(base, shapes, f, c - 1);
    var block := CornerBlock(base, shapes, f, c - 1);
    assert FaceCorners(base, shapes, f, c) == prefix + block;
    if j == c - 1 {
      AppendIndex(prefix, block, |prefix| + t);
    } else {
      FaceCornersEntry(base, shapes, f, c - 1, j, t);
      var idx := |FaceCorners(base, shapes, f, j)| + t;
      assert (prefix + block)[idx] == prefix[idx];
    }
  }

  /** The blocks of every face, in face order. */
  function FaceBlocks(base: Mesh, shapes: seq<Mesh>): (r: seq<seq<Vec4>>)
    requires ValidTopology(base, shapes)
    ensures |r| == |base.faces|
    ensures forall i :: 0 <= i < |r| ==>
              FaceInRange(base, shapes, base.faces[i]) && r[i] == FaceCorners(base, shapes, base.faces[i], 3)
  {
    seq(|base.faces|, i requires 0 <= i < |base.faces| && ValidTopology(base, shapes) =>
      assert FaceInRange(base, shapes, base.faces[i]);
      FaceCorners(base, shapes, base.faces[i], 3))
  }

  /** Every face contributes 6 × shapes texels. */
  lemma {:induction false} FaceBlocksUniform(base: Mesh, shapes: seq<Mesh>)
    requires ValidTopology(base, shapes)
    ensures Uniform(FaceBlocks(base, shapes), 6 * |shapes|)
  {
    var blocks := FaceBlocks(base, shapes);
    forall i | 0 <= i < |blocks|
      ensures |blocks[i]| == 6 * |shapes|
    {
      FaceCornersLength(base, shapes, base.faces[i], 3);
    }
  }

  /** One step of the face loop: face `i` appends its blocks. */
  lemma {:induction false} PackTargetsStep(base: Mesh, shapes: seq<Mesh>, i: nat)
    requires ValidTopology(base, shapes)
    requires i < |base.faces|
    ensures FaceInRange(base, shapes, base.faces[i])
    ensures Flatten(FaceBlocks(base, shapes)[..i + 1])
         == Flatten(FaceBlocks(base, shapes)[..i]) + FaceCorners(base, shapes, base.faces[i], 3)
  {
    FlattenSnoc(FaceBlocks(base, shapes), i);
  }

  lemma ZeroProduct(a: nat, b: nat)
    ensures a * b == 0 <==> a == 0 || b == 0
  {
  }

  /** The texel buffer `createMorphMesh` fills: every corner's block, face by
      face and corner by corner. */
  function PackTargets(base: Mesh, shapes: seq<Mesh>): (r: seq<Vec4>)
    requires ValidTopology(base, shapes)
    ensures r == [] <==> |base.faces| == 0 || |shapes| == 0
  {
    FaceBlocksUniform(base, shapes);
    FlattenLength(FaceBlocks(base, shapes), 6 * |shapes|);
    ZeroProduct(|base.faces|, 6 * |shapes|);
    Flatten(FaceBlocks(base, shapes))
  }

  /** The base record of corner `j` of face `f`. */
  function CornerRecord(base: Mesh, f: Face, j: nat): VertData
    requires CornerFits(base, f, j)
  {
    VertData(base.verts[f.vert[j]], base.normals[f.norm[j]])
  }

  /** The base records of the first `c` corners of face `f`. */
  function CornerRecords(base: Mesh, f: Face, c: nat): (r: seq<VertData>)
    requires c <= 3
    requires FaceFits(base, f)
    ensures |r| == c
    ensures forall j :: 0 <= j < c ==> r[j] == CornerRecord(base, f, j)
  {
    if c == 0 then []
    else CornerRecords(base, f, c - 1) + [CornerRecord(base, f, c - 1)]
  }

  /** The base-pose vertex buffer of the first `n` faces. */
  function PackBase(base: Mesh, n: nat): (r: seq<VertData>)
    requires n <= |base.faces|
    requires BaseFits(base)
    ensures |r| == 3 * n
  {
    if n == 0 then []
    else PackBase(base, n - 1) + CornerRecords(base, base.faces[n - 1], 3)
  }

  /** Offset `t` of the block of corner `j` of face `i` in a buffer packed for
      `shapeCount` shapes: every corner before it holds 2 × `shapeCount` texels. */
  function TexelSlot(shapeCount: nat, i: nat, j: nat, t: nat): nat
  {
    (3 * i + j) * (2 * shapeCount) + t
  }

  /** Where the position delta of shape `k` at corner `j` of face `i` lives in a
      buffer packed for `shapeCount` shapes. */
  function PositionSlot(shapeCount: nat, i: nat, j: nat, k: nat): nat
  {
    (3 * i + j) * (2 * shapeCount) + k
  }

  /** Where the matching normal delta lives: after all position deltas of the corner. */
  function NormalSlot(shapeCount: nat, i: nat, j: nat, k: nat): nat
  {
    (3 * i + j) * (2 * shapeCount) + shapeCount + k
  }

  /** The slot formula, rewritten in terms of the block lengths. */
  lemma SlotArithmetic(shapeCount: nat, i: nat, j: nat, t: nat)
    ensures i * (6 * shapeCount) + (j * (2 * shapeCount) + t) == TexelSlot(shapeCount, i, j, t)
  {
    assert (3 * i + j) * (2 * shapeCount) == i * (6 * shapeCount) + j * (2 * shapeCount);
  }

  /** `s` has an entry at `idx` and it is `v`. */
  predicate EntryIs(s: seq<Vec4>, idx: int, v: Vec4)
  {
    0 <= idx < |s| && s[idx] == v
  }

  /** Moves a fact about a buffer entry from the running offset to `TexelSlot`. */
  lemma EntryAtSlot(all: seq<Vec4>, block: seq<Vec4>, within: nat, shapeCount: nat, i: nat, j: nat, t: nat)
    requires within == j * (2 * shapeCount)
    requires t < |block| && EntryIs(all, i * (6 * shapeCount) + (within + t), block[t])
    ensures TexelSlot(shapeCount, i, j, t) < |all|
    ensures all[TexelSlot(shapeCount, i, j, t)] == block[t]
  {
    SlotArithmetic(shapeCount, i, j, t);
  }

  /** The texel at offset `t` of corner `j` of face `i` comes from that
      corner's block, counting offsets from the lengths of what precedes it. */
  lemma {:induction false} PackTargetsBlockEntry(base: Mesh, shapes: seq<Mesh>, i: nat, j: nat, t: nat)
    requires ValidTopology(base, shapes)
    requires i < |base.faces| && j < 3 && t < 2 * |shapes|
    ensures FaceInRange(base, shapes, base.faces[i])
    ensures CornerInRange(base, shapes, base.faces[i], j)
    ensures |CornerBlock(base, shapes, base.faces[i], j)| == 2 * |shapes|
    ensures EntryIs(PackTargets(base, shapes), i * (6 * |shapes|) + (|FaceCorners(base, shapes, base.faces[i], j)| + t),
                    CornerBlock(base, shapes, base.faces[i], j)[t])
  {
    var f := base.faces[i];
    assert FaceInRange(base, shapes, f);
    FaceCornersEntry(base, shapes, f, 3, j, t);
    FaceCornersLength(base, shapes, f, 3);
    FaceBlocksUniform(base, shapes);
    var blocks := FaceBlocks(base, shapes);
    var offset := |FaceCorners(base, shapes, f, j)| + t;
    FlattenEntry(blocks, 6 * |shapes|, i, offset);
    ProductNonNegative(i, 6 * |shapes|);
    assert PackTargets(base, shapes) == Flatten(blocks);
    assert blocks[i][offset] == CornerBlock(base, shapes, f, j)[t];
  }

  /** Offset `t` of the block of corner `j` of face `i` sits at `TexelSlot` in
      the whole buffer. */
  lemma {:induction false} PackTargetsEntry(base: Mesh, shapes: seq<Mesh>, i: nat, j: nat, t: nat)
    requires ValidTopology(base, shapes)
    requires i < |base.faces| && j < 3 && t < 2 * |shapes|
    ensures CornerInRange(base, shapes, base.faces[i], j)
    ensures TexelSlot(|shapes|, i, j, t) < |PackTargets(base, shapes)|
    ensures PackTargets(base, shapes)[TexelSlot(|shapes|, i, j, t)]
         == CornerBlock(base, shapes, base.faces[i], j)[t]
  {
    PackTargetsBlockEntry(base, shapes, i, j, t);
    var f := base.faces[i];
    var within := FaceCorners(base, shapes, f, j);
    FaceCornersLength(base, shapes, f, j);
    EntryAtSlot(PackTargets(base, shapes), CornerBlock(base, shapes, f, j), |within|, |shapes|, i, j, t);
  }

  lemma SixFold(a: nat, b: nat)
    ensures a * (6 * b) == a * 3 * 2 * b
  {
  }

  /** The packed buffer holds faces × 3 × 2 × shapes texels. */
  lemma {:induction false} PackTargetsLength(base: Mesh, shapes: seq<Mesh>)
    requires ValidTopology(base, shapes)
    ensures |PackTargets(base, shapes)| == |base.faces| * 3 * 2 * |shapes|
  {
    FaceBlocksUniform(base, shapes);
    FlattenLength(FaceBlocks(base, shapes), 6 * |shapes|);
    SixFold(|base.faces|, |shapes|);
  }

  /** The buffer the program builds has exactly faces × 3 × 2 × shapes texels,
      and the position delta of shape `k` at corner `j` of face `i` is at
      `PositionSlot`, equal to that shape's vertex minus the base vertex, w = 1. */
  lemma {:induction false} PackedPositionDelta(base: Mesh, shapes: seq<Mesh>, i: nat, j: nat, k: nat)
    requires ValidTopology(base, shapes)
    requires i < |base.faces| && j < 3 && k < |shapes|
    ensures PositionSlot(|shapes|, i, j, k) < |PackTargets(base, shapes)|
    ensures var f := base.faces[i];
            && j < |f.vert| && f.vert[j] < |base.verts| && f.vert[j] < |shapes[k].verts|
            && PackTargets(base, shapes)[PositionSlot(|shapes|, i, j, k)]
               == Point(Sub(shapes[k].verts[f.vert[j]], base.verts[f.vert[j]]))
  {
    assert FaceInRange(base, shapes, base.faces[i]);
    assert CornerInRange(base, shapes, base.faces[i], j);
    PackTargetsEntry(base, shapes, i, j, k);
    CornerBlockEntry(base, shapes, base.faces[i], j, k);
  }

  /** The normal delta of shape `k` at corner `j` of face `i` is at
      `NormalSlot`, i.e. all position deltas of a corner precede its normal
      deltas, and equals the shape's normal minus the base normal, w = 1. */
  lemma {:induction false} PackedNormalDelta(base: Mesh, shapes: seq<Mesh>, i: nat, j: nat, k: nat)
    requires ValidTopology(base, shapes)
    requires i < |base.faces| && j < 3 && k < |shapes|
    ensures NormalSlot(|shapes|, i, j, k) < |PackTargets(base, shapes)|
    ensures var f := base.faces[i];
            && j < |f.norm| && f.norm[j] < |base.normals| && f.norm[j] < |shapes[k].normals|
            && PackTargets(base, shapes)[NormalSlot(|shapes|, i, j, k)]
               == Point(Sub(shapes[k].normals[f.norm[j]], base.normals[f.norm[j]]))
  {
    assert FaceInRange(base, shapes, base.faces[i]);
    assert CornerInRange(base, shapes, base.faces[i], j);
    PackTargetsEntry(base, shapes, i, j, |shapes| + k);
    CornerBlockEntry(base, shapes, base.faces[i], j, k);
    assert TexelSlot(|shapes|, i, j, |shapes| + k) == NormalSlot(|shapes|, i, j, k);
  }

  lemma {:induction false} PackBaseEntry(base: Mesh, n: nat, i: nat, j: nat)
    requires BaseFits(base)
    requires n <= |base.faces| && i < n && j < 3
    ensures 3 * i + j < |PackBase(base, n)|
    ensures PackBase(base, n)[3 * i + j] == CornerRecord(base, base.faces[i], j)
  {
    if i < n - 1 {
      PackBaseEntry(base, n - 1, i, j);
    }
  }

  /** The base-pose buffer has 3 records per face, and record `3i + j` is the
      base position and base normal of corner `j` of face `i`. */
  lemma {:induction false} PackedBaseRecord(base: Mesh, i: nat, j: nat)
    requires BaseFits(base)
    requires i < |base.faces| && j < 3
    ensures |PackBase(base, |base.faces|)| == |base.faces| * 3
    ensures var f := base.faces[i];
            && j < |f.vert| && j < |f.norm| && f.vert[j] < |base.verts| && f.norm[j] < |base.normals|
            && PackBase(base, |base.faces|)[3 * i + j] == VertData(base.verts[f.vert[j]], base.normals[f.norm[j]])
  {
    assert CornerFits(base, base.faces[i], j);
    PackBaseEntry(base, |base.faces|, i, j);
  }

  /** One shape loop of `createMorphMesh`: for each shape in order, push the
      difference between its value at `idx` and the base value `b`, w = 1. */
  method AppendDeltas(targets: seq<Vec4>, shapes: seq<Mesh>, a: Attr, idx: nat, b: Vec3)
    returns (out: seq<Vec4>)
    requires forall k :: 0 <= k < |shapes| ==> idx < |Attribute(shapes[k], a)|
    ensures out == targets + Deltas(shapes, a, idx, b, |shapes|)
  {
    out := targets;
    var vi := 0;
    while vi < |shapes|
      invariant vi <= |shapes|
      invariant out == targets + Deltas(shapes, a, idx, b, vi)
    {
      var current := Sub(Attribute(shapes[vi], a)[idx], b);
      out := out + [Vec4(current.x, current.y, current.z, 1.0)];
      vi := vi + 1;
    }
  }

  /** The body of the corner loop: the position deltas and the normal deltas
      of corner `j` of face `f`, and the base record of that corner. */
  method AppendCorner(targets: seq<Vec4>, base: Mesh, shapes: seq<Mesh>, f: Face, j: nat)
    returns (targets': seq<Vec4>, d: VertData)
    requires CornerInRange(base, shapes, f, j)
    ensures targets' == targets + CornerBlock(base, shapes, f, j)
    ensures d == CornerRecord(base, f, j)
  {
    assert forall k :: 0 <= k < |shapes| ==> CornerFits(shapes[k], f, j);
    var p := base.verts[f.vert[j]];
    targets' := AppendDeltas(targets, shapes, Position, f.vert[j], p);
    var n := base.normals[f.norm[j]];
    targets' := AppendDeltas(targets', shapes, Normal, f.norm[j], n);
    assert targets' == targets + (Deltas(shapes, Position, f.vert[j], p, |shapes|)
                                  + Deltas(shapes, Normal, f.norm[j], n, |shapes|));
    d := VertData(p, n);
  }

  /** The corner loop of `createMorphMesh` for one face: per corner, the
      position deltas, the normal deltas, then the base record. */
  method AppendFace(targets: seq<Vec4>, vboMesh: seq<VertData>, base: Mesh, shapes: seq<Mesh>, f: Face)
    returns (targets': seq<Vec4>, vboMesh': seq<VertData>)
    requires FaceInRange(base, shapes, f)
    ensures targets' == targets + FaceCorners(base, shapes, f, 3)
    ensures vboMesh' == vboMesh + CornerRecords(base, f, 3)
  {
    targets' := targets;
    vboMesh' := vboMesh;
    var j := 0;
    while j < 3
      invariant j <= 3
      invariant targets' == targets + FaceCorners(base, shapes, f, j)
      invariant vboMesh' == vboMesh + CornerRecords(base, f, j)
    {
      FaceCornerInRange(base, shapes, f, j);
      var d;
      targets', d := AppendCorner(targets', base, shapes, f, j);
      assert targets' == targets + (FaceCorners(base, shapes, f, j) + CornerBlock(base, shapes, f, j));
      vboMesh' := vboMesh' + [d];
      j := j + 1;
    }
  }

  /** The weight loop closing `createMorphMesh`: one zero per blend shape. */
  method AppendZeroWeights(weights: seq<real>, count: nat) returns (weights': seq<real>)
    ensures weights' == Weights.AppendZeros(weights, count)
  {
    weights' := weights;
    var k := 0;
    while k < count
      invariant k <= count
      invariant weights' == Weights.AppendZeros(weights, k)
    {
      weights' := weights' + [0.0];
      k := k + 1;
    }
  }

  /** The face loop of `createMorphMesh`: both buffers, face by face. */
  method PackFaces(base: Mesh, shapes: seq<Mesh>) returns (targets: seq<Vec4>, vboMesh: seq<VertData>)
    requires ValidTopology(base, shapes)
    ensures BaseFits(base)
    ensures targets == PackTargets(base, shapes)
    ensures vboMesh == PackBase(base, |base.faces|)
  {
    ValidTopologyBaseFits(base, shapes);
    var nFaces := |base.faces|;
    targets := [];
    vboMesh := [];
    var i := 0;
    while i < nFaces
      invariant i <= nFaces
      invariant targets == Flatten(FaceBlocks(base, shapes)[..i])
      invariant vboMesh == PackBase(base, i)
    {
      PackTargetsStep(base, shapes, i);
      targets, vboMesh := AppendFace(targets, vboMesh, base, shapes, base.faces[i]);
      i := i + 1;
    }
    assert FaceBlocks(base, shapes)[..nFaces] == FaceBlocks(base, shapes);
  }

  /** `createMorphMesh` as the program runs it, without the GPU upload: the
      face loop fills the texel buffer and the base-pose buffer, then one zero
      weight per blend shape is appended. */
  method CreateMorphMesh(base: Mesh, shapes: seq<Mesh>, weights: seq<real>)
    returns (targets: seq<Vec4>, vboMesh: seq<VertData>, weights': seq<real>)
    requires ValidTopology(base, shapes)
    ensures targets == PackTargets(base, shapes)
    ensures BaseFits(base) && vboMesh == PackBase(base, |base.faces|)
    ensures |targets| == |base.faces| * 3 * 2 * |shapes|
    ensures |vboMesh| == |base.faces| * 3
    ensures |weights'| == |weights| + |shapes|
    ensures weights'[..|weights|] == weights
    ensures forall i :: |weights| <= i < |weights'| ==> weights'[i] == 0.0
  {
    targets, vboMesh := PackFaces(base, shapes);
    weights' := AppendZeroWeights(weights, |shapes|);
    PackTargetsLength(base, shapes);
  }
}

=== FILE: results.dfy ===
/** Failure-carrying wrappers shared by the model. Undefined behaviour of the
    program at start-up (dereferencing an end iterator, a missing
    base mesh, a face with fewer than three vertex or normal indices or one
    that indexes past some mesh) is modelled as an `Err`. The
    unchecked indexing elsewhere (`changeWeight`, the key handler, the label,
    `createMorphMesh`) is excluded by a `requires` instead. */
module Results {

  datatype Option<+T> = None | Some(value: T)

  datatype Result<+T, +E> = Ok(value: T) | Err(error: E)
}

=== FILE: scene.dfy ===
/** The scene object: start-up (manifest, then morph packing) and the key
    handler that drives the weight state machine. */
module Scene {
  import opened Results
  import opened Unsigned
  import opened Geometry
  import W = Weights
  import M = Manifest
  import P = MorphPacking

  /** The keys `keyPressEvent` distinguishes; every other key is `OtherKey`. */
  datatype Key =
    | Escape | Key1 | Key2 | KeyF | KeyN
    | KeyQ | KeyW | KeyLeft | KeyRight | KeySpace
    | OtherKey

  /** The part of the scene the weight keys and the on-screen label touch:
      the blend shape names, the loaded blend meshes, one weight per mesh and
      the active index (a `size_t`). */
  datatype Scene = Scene(names: seq<string>, meshes: seq<Mesh>, weights: seq<real>, active: SizeT)

  /** The invariant that ties the components together: one name and one
      weight per blend mesh, the active index names one of them, and every
      weight lies in [0, 1]. Under it the label drawn by `paintGL`, which reads
      the active name and the active weight, stays in range. */
  predicate WellFormed(s: Scene)
  {
    && |s.names| == |s.meshes| == |s.weights|
    && |s.meshes| < SIZE_LIMIT
    && s.active < |s.meshes|
    && W.AllInUnitRange(s.weights)
  }

  /** Whether a key touches the weight state at all. */
  predicate IsWeightKey(k: Key)
  {
    k == KeyQ || k == KeyW || k == KeyLeft || k == KeyRight || k == KeySpace
  }

  /** The label `paintGL` draws: the active shape's name and weight. */
  function Label(s: Scene): (r: (string, real))
    requires WellFormed(s)
    ensures r.0 in s.names
    ensures W.InUnitRange(r.1)
    ensures exists i :: 0 <= i < |s.names| && r == (s.names[i], s.weights[i])
  {
    (s.names[s.active], s.weights[s.active])
  }

  /** `keyPressEvent`, restricted to its effect on the weight state, with the
      index clamp as evidently intended. Q and W index the weights without a
      check, so the active index must name a weight. */
  function KeyPress(s: Scene, k: Key): (r: Scene)
    requires |s.meshes| < SIZE_LIMIT
    requires (k == KeyQ || k == KeyW) ==> s.active < |s.weights|
    ensures r.names == s.names && r.meshes == s.meshes
    ensures |r.weights| == |s.weights|
    ensures !IsWeightKey(k) ==> r == s
    ensures (k == KeyLeft || k == KeyRight) ==> r.weights == s.weights
    ensures (k == KeyQ || k == KeyW || k == KeySpace) ==> r.active == s.active
    ensures k == KeyW ==> r.weights == W.ChangeWeight(s.weights, s.active, W.Up)
    ensures k == KeyQ ==> r.weights == W.ChangeWeight(s.weights, s.active, W.Down)
    ensures WellFormed(s) && k == KeyW ==> r.weights[s.active] >= s.weights[s.active]
    ensures WellFormed(s) && k == KeyQ ==> r.weights[s.active] <= s.weights[s.active]
    ensures k == KeySpace ==> r.weights == W.ResetWeights(s.weights)
    ensures WellFormed(s) ==> WellFormed(r)
  {
    match k
    case KeyQ => s.(weights := W.ChangeWeight(s.weights, s.active, W.Down))
    case KeyW => s.(weights := W.ChangeWeight(s.weights, s.active, W.Up))
    case KeyLeft => s.(active := W.ChangeActiveWeight(s.active, |s.meshes|, W.Down))
    case KeyRight => s.(active := W.ChangeActiveWeight(s.active, |s.meshes|, W.Up))
    case KeySpace => s.(weights := W.ResetWeights(s.weights))
    case _ => s
  }

  /** A run of key presses from a well-formed scene. */
  function Run(s: Scene, keys: seq<Key>): (r: Scene)
    requires WellFormed(s)
    ensures WellFormed(r)
    ensures r.names == s.names && r.meshes == s.meshes
    decreases |keys|
  {
    if |keys| == 0 then s else Run(KeyPress(s, keys[0]), keys[1..])
  }

  /** Run splits at any point. */
  lemma {:induction false} RunAppend(s: Scene, keys: seq<Key>, more: seq<Key>)
    requires WellFormed(s)
    ensures Run(s, keys + more) == Run(Run(s, keys), more)
    decreases |keys|
  {
    if |keys| == 0 {
      assert keys + more == more;
    } else {
      assert (keys + more)[0] == keys[0];
      assert (keys + more)[1..] == keys[1..] + more;
      RunAppend(KeyPress(s, keys[0]), keys[1..], more);
    }
  }

  /** The space bar wipes out whatever the keys before it did to the weights,
      and leaves the active index alone. */
  lemma {:induction false} SpaceResetsAfterAnyKeys(s: Scene, keys: seq<Key>)
    requires WellFormed(s)
    ensures Run(s, keys + [KeySpace]).weights == W.Zeros(|s.weights|)
    ensures Run(s, keys + [KeySpace]).active == Run(s, keys).active
  {
    RunAppend(s, keys, [KeySpace]);
    var t := Run(s, keys);
    assert Run(t, [KeySpace]) == Run(KeyPress(t, KeySpace), []);
  }

  /** Keys other than the arrows never move the active index. */
  lemma {:induction false} OnlyArrowsMoveActive(s: Scene, keys: seq<Key>)
    requires WellFormed(s)
    requires forall i :: 0 <= i < |keys| ==> keys[i] != KeyLeft && keys[i] != KeyRight
    ensures Run(s, keys).active == s.active
    decreases |keys|
  {
    if |keys| != 0 {
      assert keys[0] != KeyLeft && keys[0] != KeyRight;
      OnlyArrowsMoveActive(KeyPress(s, keys[0]), keys[1..]);
    }
  }

  /** `keyPressEvent` with the index update as written. */
  function KeyPressAsWritten(s: Scene, k: Key): (r: Scene)
    requires |s.meshes| < SIZE_LIMIT
    requires (k == KeyQ || k == KeyW) ==> s.active < |s.weights|
    ensures r.names == s.names && r.meshes == s.meshes
    ensures (k == KeyLeft || k == KeyRight) ==> r.weights == s.weights
    ensures (k != KeyLeft && k != KeyRight) ==> r == KeyPress(s, k)
  {
    match k
    case KeyLeft => s.(active := W.ChangeActiveWeightAsWritten(s.active, |s.meshes|, W.Down))
    case KeyRight => s.(active := W.ChangeActiveWeightAsWritten(s.active, |s.meshes|, W.Up))
    case _ => KeyPress(s, k)
  }

  /** With the index update as written, the left arrow on the first shape
      breaks the invariant: the next frame's label reads past the end of
      the names and the weights. */
  lemma {:induction false} LeftAtFirstShapeBreaksLabel(s: Scene)
    requires WellFormed(s)
    requires s.active == 0
    ensures KeyPressAsWritten(s, KeyLeft).active >= |s.names|
    ensures KeyPressAsWritten(s, KeyLeft).active >= |s.weights|
    ensures !WellFormed(KeyPressAsWritten(s, KeyLeft))
  {
    W.DownAtZeroWraps(|s.meshes|);
  }

  /** Elsewhere the two index updates agree, so the corrected key handler
      differs from the program only in that one case. */
  lemma {:induction false} KeyPressAgrees(s: Scene, k: Key)
    requires WellFormed(s)
    ensures KeyPressAsWritten(s, k) != KeyPress(s, k) <==> k == KeyLeft && s.active == 0
  {
    if k == KeyLeft || k == KeyRight {
      var d := if k == KeyLeft then W.Down else W.Up;
      W.ChangeActiveWeightAgrees(s.active, |s.meshes|, d);
    }
  }

  /** Why start-up can fail (each of these is undefined behaviour in the
      program, which does not check for it). */
  datatype StartupFault =
    | BadManifest(error: M.ParseError)
    | NoBaseMesh
    | TopologyMismatch  // a face lacks three vertex or normal indices, or indexes past some mesh

  /** The outcome of start-up: the scene plus the packed buffers. */
  datatype Loaded = Loaded(scene: Scene, base: Mesh, targets: seq<Vec4>, vboMesh: seq<P.VertData>)

  /** The meshes a manifest names, loaded by `load` (the OBJ reader). */
  function LoadAll(paths: seq<string>, load: string -> Mesh): (r: seq<Mesh>)
    ensures |r| == |paths|
    ensures forall i :: 0 <= i < |paths| ==> r[i] == load(paths[i])
  {
    seq(|paths|, i requires 0 <= i < |paths| => load(paths[i]))
  }

  /** The constructor and `initializeGL`: the active index starts at 0, the
      manifest is parsed, each named mesh is loaded, and the morph mesh is
      packed, which also gives every blend shape a zero weight. */
  method Startup(lines: seq<string>, load: string -> Mesh) returns (r: Result<Loaded, StartupFault>)
    requires |lines| < SIZE_LIMIT
    ensures M.ParseLines(lines).Err? ==> r == Err(BadManifest(M.ParseLines(lines).error))
    ensures M.ParseLines(lines).Ok? && M.ParseLines(lines).value.basePath.None? ==> r == Err(NoBaseMesh)
    ensures r.Ok? <==>
              && M.ParseLines(lines).Ok?
              && M.ParseLines(lines).value.basePath.Some?
              && P.ValidTopology(load(M.ParseLines(lines).value.basePath.value),
                                 LoadAll(M.ParseLines(lines).value.paths, load))
    ensures r.Ok? ==> var l := r.value;
              && l.scene.names == M.BlendNames(lines)
              && l.scene.meshes == LoadAll(M.BlendPaths(lines), load)
              && |l.scene.names| == |l.scene.meshes| == |l.scene.weights| < SIZE_LIMIT
              && (forall i :: 0 <= i < |l.scene.weights| ==> l.scene.weights[i] == 0.0)
              && l.scene.active == 0
              && l.base == load(M.ParseLines(lines).value.basePath.value)
              && P.ValidTopology(l.base, l.scene.meshes)
              && l.targets == P.PackTargets(l.base, l.scene.meshes)
              && P.BaseFits(l.base) && l.vboMesh == P.PackBase(l.base, |l.base.faces|)
              && |l.targets| == |l.base.faces| * 3 * 2 * |l.scene.meshes|
              && |l.vboMesh| == |l.base.faces| * 3
    ensures r.Ok? && |r.value.scene.meshes| > 0 ==> WellFormed(r.value.scene)
    ensures r.Ok? && |r.value.scene.meshes| == 0 ==> !WellFormed(r.value.scene)
  {
    var parsed := M.ParseLines(lines);
    if parsed.Err? {
      return Err(BadManifest(parsed.error));
    }
    var m := parsed.value;
    if m.basePath.None? {
      return Err(NoBaseMesh);
    }
    M.ParsedBlendShapesInFileOrder(lines);
    var base := load(m.basePath.value);
    var shapes := LoadAll(m.paths, load);
    if !P.ValidTopology(base, shapes) {
      return Err(TopologyMismatch);
    }
    var targets, vboMesh, weights := P.CreateMorphMesh(base, shapes, []);
    assert weights == weights[..|weights|];
    var s := Scene(m.names, shapes, weights, 0);
    assert W.AllInUnitRange(weights);
    r := Ok(Loaded(s, base, targets, vboMesh));
  }
}

=== FILE: unsigned.dfy ===
/** Unsigned machine arithmetic on `size_t`, taken to be 64 bits wide. */
module Unsigned {

  const SIZE_LIMIT: int := 0x1_0000_0000_0000_0000

  /** The largest `size_t`, the value `0 - 1` wraps to. */
  const SIZE_MAX: int := SIZE_LIMIT - 1

  type SizeT = x: int | 0 <= x < SIZE_LIMIT

  /** `++x` on a `size_t`. */
  function Inc(x: SizeT): (r: SizeT)
    ensures x < SIZE_MAX ==> r == x + 1
    ensures x == SIZE_MAX ==> r == 0
  {
    (x + 1) % SIZE_LIMIT
  }

  /** `--x` (and `x - 1`) on a `size_t`. */
  function Dec(x: SizeT): (r: SizeT)
    ensures 0 < x ==> r == x - 1
    ensures x == 0 ==> r == SIZE_MAX
  {
    (x - 1) % SIZE_LIMIT
  }
}

=== FILE: weights.dfy ===
/** The blend-weight state: one weight per blend shape, changed by
    `resetWeights`, `changeWeight` and `changeActiveWeight`. */
module Weights {
  import opened Unsigned

  datatype Direction = Up | Down

  /** The amount one key press adds to or takes from the active weight. */
  const STEP: real := 0.05

  predicate InUnitRange(x: real)
  {
    0.0 <= x <= 1.0
  }

  predicate AllInUnitRange(w: seq<real>)
  {
    forall i :: 0 <= i < |w| ==> InUnitRange(w[i])
  }

  /** `std::max(a, b)`: `b` when `a < b`, otherwise `a`. */
  function Max(a: real, b: real): real
  {
    if a < b then b else a
  }

  /** `std::min(a, b)`: `b` when `b < a`, otherwise `a`. */
  function Min(a: real, b: real): real
  {
    if b < a then b else a
  }

  /** `std::min(1.0f, std::max(0.0f, x))`. */
  function Clamp01(x: real): (r: real)
    ensures InUnitRange(r)
    ensures InUnitRange(x) ==> r == x
    ensures x < 0.0 ==> r == 0.0
    ensures 1.0 < x ==> r == 1.0
  {
    Min(1.0, Max(0.0, x))
  }

  /** `n` zero weights. */
  function Zeros(n: nat): (r: seq<real>)
    ensures |r| == n
    ensures forall i :: 0 <= i < n ==> r[i] == 0.0
  {
    if n == 0 then [] else Zeros(n - 1) + [0.0]
  }

  /** The loop closing `createMorphMesh`: one zero weight is appended per blend
      shape, after whatever the weight vector already held. */
  function AppendZeros(w: seq<real>, n: nat): (r: seq<real>)
    ensures |r| == |w| + n
    ensures r[..|w|] == w
    ensures forall i :: |w| <= i < |r| ==> r[i] == 0.0
  {
    if n == 0 then w
    else
      var prev := AppendZeros(w, n - 1);
      assert (prev + [0.0])[..|w|] == prev[..|w|];
      prev + [0.0]
  }

  /** `resetWeights`: every weight becomes 0, the number of weights is kept. */
  function ResetWeights(w: seq<real>): (r: seq<real>)
    ensures |r| == |w|
    ensures forall i :: 0 <= i < |r| ==> r[i] == 0.0
    ensures AllInUnitRange(r)
  {
    Zeros(|w|)
  }

  /** Resetting twice is resetting once. */
  lemma {:induction false} ResetIdempotent(w: seq<real>)
    ensures ResetWeights(ResetWeights(w)) == ResetWeights(w)
  {
  }

  /** `changeWeight`: the active weight moves by one step in the given
      direction and is clamped to [0, 1]; no other weight changes. The active
      index is not checked by the program, so it is the caller's obligation. */
  function ChangeWeight(w: seq<real>, active: nat, d: Direction): (r: seq<real>)
    requires active < |w|
    ensures |r| == |w|
    ensures InUnitRange(r[active])
    ensures forall i :: 0 <= i < |w| && i != active ==> r[i] == w[i]
    ensures d == Up && 0.0 <= w[active] ==> r[active] == (if w[active] + STEP <= 1.0 then w[active] + STEP else 1.0)
    ensures d == Down && w[active] <= 1.0 ==> r[active] == (if 0.0 <= w[active] - STEP then w[active] - STEP else 0.0)
    ensures AllInUnitRange(w) ==> AllInUnitRange(r)
  {
    var moved := if d == Up then w[active] + STEP else w[active] - STEP;
    w[active := Clamp01(moved)]
  }

  /** A weight already at its limit stays there: W at 1 and Q at 0 change nothing. */
  lemma {:induction false} ChangeWeightSaturates(w: seq<real>, active: nat)
    requires active < |w|
    ensures w[active] == 1.0 ==> ChangeWeight(w, active, Up) == w
    ensures w[active] == 0.0 ==> ChangeWeight(w, active, Down) == w
  {
  }

  /** `n` presses of the same weight key: only the active weight ever moves,
      and after at least one press it lies in [0, 1]. */
  function Presses(w: seq<real>, active: nat, d: Direction, n: nat): (r: seq<real>)
    requires active < |w|
    ensures |r| == |w|
    ensures forall i :: 0 <= i < |w| && i != active ==> r[i] == w[i]
    ensures n > 0 ==> InUnitRange(r[active])
    ensures AllInUnitRange(w) ==> AllInUnitRange(r)
  {
    if n == 0 then w else ChangeWeight(Presses(w, active, d, n - 1), active, d)
  }

  /** From 0, each of the first twenty presses of W adds exactly one step, so
      twenty presses bring the weight to 1; the other weights never move. */
  lemma {:induction false} PressesUpFromZero(w: seq<real>, active: nat, n: nat)
    requires active < |w| && w[active] == 0.0
    requires n <= 20
    ensures Presses(w, active, Up, n)[active] == n as real * STEP
    ensures forall i :: 0 <= i < |w| && i != active ==> Presses(w, active, Up, n)[i] == w[i]
  {
    if n > 0 {
      PressesUpFromZero(w, active, n - 1);
    }
  }

  /** From 1, each of the first twenty presses of Q takes away exactly one step. */
  lemma {:induction false} PressesDownFromOne(w: seq<real>, active: nat, n: nat)
    requires active < |w| && w[active] == 1.0
    requires n <= 20
    ensures Presses(w, active, Down, n)[active] == 1.0 - n as real * STEP
    ensures forall i :: 0 <= i < |w| && i != active ==> Presses(w, active, Down, n)[i] == w[i]
  {
    if n > 0 {
      PressesDownFromOne(w, active, n - 1);
    }
  }

  /** `changeActiveWeight` exactly as the program computes it on a `size_t`:
      `++active` and, past the last shape, `meshCount - 1`; or `--active`, whose
      `<= 0` test on an unsigned value only catches 0 after the wrap. */
  function ChangeActiveWeightAsWritten(active: SizeT, meshCount: SizeT, d: Direction): (r: SizeT)
    ensures d == Up && 1 <= meshCount && active < meshCount ==>
              r == (if active + 1 < meshCount then active + 1 else meshCount - 1)
    ensures d == Up && meshCount == 0 ==> r == SIZE_MAX
    ensures d == Up && 1 <= meshCount && meshCount <= active < SIZE_MAX ==> r == meshCount - 1
    ensures d == Up && active == SIZE_MAX && 1 <= meshCount ==> r == 0
    ensures d == Down && 1 <= active ==> r == active - 1
    ensures d == Down && active == 0 ==> r == SIZE_MAX
  {
    match d
    case Up =>
      var a := Inc(active);
      if a >= meshCount then Dec(meshCount) else a
    case Down =>
      var a := Dec(active);
      if a <= 0 then 0 else a
  }

  /** Left at the first shape leaves the active index outside every possible
      mesh list: the next `m_meshNames[m_activeWeight]` reads out of bounds. */
  lemma {:induction false} DownAtZeroWraps(meshCount: SizeT)
    ensures ChangeActiveWeightAsWritten(0, meshCount, Down) == SIZE_MAX
    ensures meshCount <= ChangeActiveWeightAsWritten(0, meshCount, Down)
  {
  }

  /** The index move the clamps evidently intend: one step up or down, kept
      inside [0, meshCount - 1] (and at 0 when there are no shapes). */
  function ChangeActiveWeight(active: SizeT, meshCount: SizeT, d: Direction): (r: SizeT)
    ensures active < meshCount ==> r < meshCount
    ensures meshCount == 0 && d == Up ==> r == 0
    ensures d == Up && active < meshCount ==>
              r == (if active + 1 < meshCount then active + 1 else meshCount - 1)
    ensures d == Down ==> r == (if active == 0 then 0 else active - 1)
  {
    match d
    case Up =>
      if active + 1 < meshCount then active + 1
      else if meshCount == 0 then 0
      else meshCount - 1
    case Down =>
      if active == 0 then 0 else active - 1
  }

  /** On an index inside the mesh list the corrected move and the program's
      agree in every case except Left at the first shape. */
  lemma {:induction false} ChangeActiveWeightAgrees(active: SizeT, meshCount: SizeT, d: Direction)
    requires active < meshCount
    ensures (d == Down && active == 0) <==>
            ChangeActiveWeight(active, meshCount, d) != ChangeActiveWeightAsWritten(active, meshCount, d)
  {
  }
}
